=== FILE: README.md ===
# School cafeteria pages: a Dafny model of their list and form logic

The cafeteria web application is a handful of React pages in front of a
PocketBase backend. Under the React state handling, each page runs
small, deterministic list and form transformations. This project reads
every state setter as "return the new value" and states those
transformations as pure Dafny functions over immutable records and
sequences. It then proves what the pages promise about them.

- `wrappers.dfy` (`Wrappers`): `Option` and `Result`.
- `listing.dfy` (`Listing`): the array operations the pages use.
  - `filter`, with the order-preserving subsequence relation.
  - The `reduce` sums, as a left fold with its algebra.
  - The `forEach` histogram, with its sum.
  - `Present`, which is JavaScript truthiness of an optional string.
- `text.dfy` (`Text`): the JavaScript string operations the pages use.
  - `includes`, proved equal to the positional definition of a substring.
  - `toLowerCase`, `trim` and the ECMAScript white-space set.
  - `replace(/\D/g, '')`.
  - The tests `isNaN(parseInt(s))` and `isNaN(parseFloat(s))`.
- `cart.dfy` (`Cart`, from `src/pages/TestPage2.jsx`): the cart and its operations.
  - Lines with quantities; the add, increase, decrease, remove, clear and checkout handlers.
  - The total and the item count.
  - The cart invariant: ids are unique and quantities are at least one.
- `roster.dfy` (`Roster`, from `src/pages/Users.jsx`): the student list page.
  - The search and class filter, and the per-class statistics.
  - The class-chip toggle and the digit-only id input.
  - The add-student validation chain.
- `menu.dfy` (`Menu`, from `src/pages/MenuManagement.jsx`): the dish management page.
  - The search and category filter, and the category statistics.
  - The image-URL precedence.
  - The image handlers, which keep a picked file and a typed URL mutually exclusive.
  - The add-dish validation chain, and the choice between a multipart and a JSON create call.
- `orders.dfy` (`Orders`, from `src/pages/HistoryOrder.jsx`): the order history page.
  - The status filter, the cancel action and its visibility, and the status badges.
  - The sample orders.

Missing record fields, which the pages test with `?.` or truthiness, are
modelled as `Option<string>`. `""` and `None` are both falsy, as in
JavaScript. `window.confirm` answers and the outcome of a backend create
call are boolean parameters.

Clicking the same class chip twice does not always restore the class
filter. Take the filter on class "5а" and a click on chip "6б". The first
click selects "6б", and the second returns to "all", not to "5а".
`Roster.ToggleTwice` states exactly when the round trip is the identity:
when the filter was "all" or that chip to begin with.

Some behaviours that hold for all inputs are cases the pages never reach
as they are written:
- The menu page declares `search` and `selectedCategory`
  (src/pages/MenuManagement.jsx:7-8) but never calls `setSearch` or
  `setSelectedCategory`. So `filteredMenuItems` is always the whole list.
  That is the clause of `Menu.FilteredMenuItems` for an empty query and
  category "all". The rest of its contract describes the filter as
  written, not anything the page can show.
- The cart page calls `addFromMenu` only from the quick-add buttons
  (src/pages/TestPage2.jsx:281). Those are rendered only while the cart is
  empty (line 250), one per dish of the menu. So the branch that increases
  an existing line (lines 108-114) and the return for an unknown dish
  (line 105) never run from this page. `Cart.QuickAddOnEmptyCart` states
  the one case that does run.
- The order history page starts with no order being processed, so no
  cancel button is shown at first (`Orders.InitiallyNothingToCancel`).

## Model

| member | source | states |
|---|---|---|
| Listing.Filter | src/pages/Users.jsx:180-189 | `Array.prototype.filter`: the result is never longer than the input, holds exactly the elements that pass the test, and keeps every occurrence of each passing element |
| Listing.FilterIsSubsequence | src/pages/HistoryOrder.jsx:60-62 | a filtered list is an order-preserving subsequence of the original |
| Listing.FilterKeepsAll | src/pages/MenuManagement.jsx:275-284 | filtering returns the list unchanged exactly when every element passes |
| Listing.FilterEmptyIff | src/pages/HistoryOrder.jsx:60-62 | filtering leaves nothing exactly when no element passes, the page's "no orders found" case |
| Listing.Tally | src/pages/Users.jsx:192-197 | the `forEach` histogram has a key for each non-empty value present, and each count is the value's multiplicity in the list |
| Listing.TallyAbsent | src/pages/Users.jsx:194 | an empty or missing value never becomes a key; every key occurs at least once in the list, so no bucket is invented; a non-empty value that is not a key does not occur |
| Listing.TallyIgnoresAbsent | src/pages/Users.jsx:194 | the values the guard skips contribute nothing: the histogram of only the present values is the same map |
| Listing.TallySum | src/pages/Users.jsx:192-197 | the histogram's counts add up to the number of elements with a non-empty value |
| Text.ContainsIffOccurs | src/pages/Users.jsx:182-184 | `includes` holds exactly when the needle occurs at some position |
| Text.Lower | src/pages/Users.jsx:182 | `toLowerCase` keeps the length and folds each character on its own |
| Text.LowerIdempotent | src/pages/MenuManagement.jsx:277 | lower-casing an already lower-cased string changes nothing |
| Text.LowerFixesOnlySmall | src/pages/MenuManagement.jsx:277 | lower-casing leaves a string unchanged exactly when it holds none of the capitals it folds |
| Text.TrimStart | src/pages/Users.jsx:106-107 | the white space `parseInt` skips: the result is a suffix of the input, only white space was removed, and it does not start with white space |
| Text.Trim | src/pages/Users.jsx:91-104 | `trim` returns a contiguous slice of the input; everything cut before and after it is white space, and the slice has no white space at either end |
| Text.BlankIffAllSpaces | src/pages/MenuManagement.jsx:137-160 | `!s.trim()` holds exactly when every character of `s` is white space |
| Text.StripNonDigits | src/pages/Users.jsx:339 | `replace(/\D/g, '')` returns only digits: every digit of the input, each as often as it occurs, in input order |
| Text.StripNonDigitsFixes | src/pages/Users.jsx:338-341 | stripping fixes exactly the all-digit strings, so it is idempotent |
| Text.DigitsBlankIffEmpty | src/pages/Users.jsx:101-104 | a digit string is refused as blank only when it is empty |
| Text.DigitsParseAsInt | src/pages/Users.jsx:106-107 | a non-empty digit string never makes `parseInt` return NaN |
| Cart.TotalAmountSplits | src/pages/TestPage2.jsx:58 | the empty cart totals 0, and the total of a concatenation is the sum of the totals |
| Cart.ItemCountAtLeastLines | src/pages/TestPage2.jsx:307-311 | with every quantity at least one, the item count is at least the number of lines |
| Cart.IncreaseQuantity | src/pages/TestPage2.jsx:61-65 | same length and order; each line with the id gains exactly one unit; no other field or line changes |
| Cart.DecreaseQuantity | src/pages/TestPage2.jsx:68-74 | same length and order; each line with the id loses one unit only while it holds more than one; nothing else changes |
| Cart.RemoveItem | src/pages/TestPage2.jsx:77-81 | a declined confirmation changes nothing; a confirmed one keeps exactly the lines with another id, in their order and with their multiplicity |
| Cart.ClearCart | src/pages/TestPage2.jsx:84-89 | the cart is either emptied or untouched, and it is empty afterwards exactly when it was empty or the user confirmed |
| Cart.Checkout | src/pages/TestPage2.jsx:92-100 | the cart is empty afterwards; the empty-cart notice appears exactly for the empty cart; otherwise the order is placed for the cart's total |
| Cart.FindMenuItem | src/pages/TestPage2.jsx:104 | `find` returns the first dish with the id, and nothing exactly when no dish has it |
| Cart.NewLine | src/pages/TestPage2.jsx:117 | a new line copies every field of the dish (id, name, description, weight, price, image) and has quantity one |
| Cart.AddFromMenu | src/pages/TestPage2.jsx:103-121 | an unknown dish changes nothing; a dish in the cart is increased and the length kept; a new dish is appended with quantity one |
| Cart.QuickAddOnEmptyCart | src/pages/TestPage2.jsx:249-281 | a click on a quick-add button, which is shown only on an empty cart and only for a dish of the menu, always finds the dish and gives a cart of exactly its new line |
| Cart.IncreasePreservesValid | src/pages/TestPage2.jsx:61-65 | increasing keeps ids unique and quantities at least one |
| Cart.DecreasePreservesValid | src/pages/TestPage2.jsx:68-74 | decreasing keeps ids unique and quantities at least one |
| Cart.DecreaseNoOpIff | src/pages/TestPage2.jsx:68-74 | decreasing returns the same cart exactly when every line with the id has at most one unit |
| Cart.DecreaseUndoesIncrease | src/pages/TestPage2.jsx:61-74 | on a cart with positive quantities, decreasing after increasing gives back the cart |
| Cart.RemovePreservesValid | src/pages/TestPage2.jsx:77-81 | removing keeps ids unique and quantities at least one |
| Cart.FilterKeepsUnique | src/pages/TestPage2.jsx:79 | any filter of a valid cart is a valid cart |
| Cart.RemoveEffect | src/pages/TestPage2.jsx:77-81 | after a confirmed removal no line has the id; the cart is one line shorter and its total drops by that line's subtotal |
| Cart.IncreaseEffect | src/pages/TestPage2.jsx:58-65 | increasing a line adds its price to the total and one to the item count |
| Cart.IncreaseAbsent | src/pages/TestPage2.jsx:61-65 | increasing an id that no line has leaves the cart as it was |
| Cart.AddFromMenuPreservesValid | src/pages/TestPage2.jsx:103-118 | adding from the menu keeps ids unique and quantities at least one |
| Cart.AddFromMenuEffect | src/pages/TestPage2.jsx:103-118 | after adding a known dish it is in the cart, the item count grows by one and the total by one unit's price |
| Cart.SampleMenuIds | src/pages/TestPage2.jsx:9-42 | the menu offers exactly the ids one to four |
| Roster.FilteredUsers | src/pages/Users.jsx:180-189 | exactly the students passing both tests, as an order-preserving subsequence keeping every occurrence; all students with no search and class "all"; only the selected class otherwise |
| Roster.NameSearchIgnoresCase | src/pages/Users.jsx:182-183 | the name tests give the same answer for a query and its lower-cased form |
| Roster.SearchIffOccurs | src/pages/Users.jsx:181-184 | a student passes the search exactly when the folded query occurs in a folded name, or the raw query occurs in a non-empty student id |
| Roster.ClassStats | src/pages/Users.jsx:192-197 | a chip for each non-empty class some student has, counting exactly the students in it |
| Roster.ClassStatsSum | src/pages/Users.jsx:192-197 | the chip counts add up to the number of students with a class |
| Roster.ToggleClass | src/pages/Users.jsx:427 | a click selects the chip, or resets to "all" exactly when that chip was already selected, or the chip is itself named "all" |
| Roster.ToggleTwice | src/pages/Users.jsx:427 | two clicks on one chip restore the filter exactly when it was "all" or that chip |
| Roster.EnterStudentId | src/pages/Users.jsx:338-341 | the stored id is every digit typed, in order and with its multiplicity, and nothing else; nothing else in the form changes; a digit string is stored as typed |
| Roster.ValidateStudent | src/pages/Users.jsx:91-110 | the first failing check, in the page's order, is reported; a valid form yields its fields untrimmed |
| Roster.DigitIdOnlyMissing | src/pages/Users.jsx:101-110 | an id typed through the digit-only input is never refused as non-numeric, only as empty |
| Roster.AddStudent | src/pages/Users.jsx:91-134 | a refused form sends nothing and stays; an accepted one sends its fields, and the form is reset when the backend takes it |
| Menu.FilteredMenuItems | src/pages/MenuManagement.jsx:275-284 | exactly the dishes passing both tests, as an order-preserving subsequence keeping every occurrence; all dishes with no search and category "all"; only the selected category otherwise |
| Menu.MissingFieldsNeverMatch | src/pages/MenuManagement.jsx:276-279 | with a non-empty query, a dish without name, description and ingredients is never shown |
| Menu.SearchIffOccurs | src/pages/MenuManagement.jsx:276-279 | a dish passes the search exactly when the folded query occurs in its folded name, description or ingredients |
| Menu.CategoryStats | src/pages/MenuManagement.jsx:287-292 | a count for each non-empty category some dish has, counting exactly the dishes in it |
| Menu.CategoryStatsSum | src/pages/MenuManagement.jsx:287-292 | the category counts add up to the number of dishes with a category |
| Menu.FileUrl | src/pages/MenuManagement.jsx:300 | the download URL is the files base, the record id, a slash and the file name |
| Menu.GetImageUrl | src/pages/MenuManagement.jsx:295-314 | no item gives ""; then a stored image file wins, then `image_url` as it is, then a stored photo; "" exactly when none is usable |
| Menu.ImageNameWins | src/pages/MenuManagement.jsx:299-301 | with a stored image file, `image_url` and `photo` do not affect the URL |
| Menu.SelectFile | src/pages/MenuManagement.jsx:100-112 | a picked file replaces the URL; no file changes nothing; the text fields are untouched |
| Menu.ChangeImageUrl | src/pages/MenuManagement.jsx:115-119 | typing a URL stores it and drops the picked file; the text fields are untouched |
| Menu.ClearImage | src/pages/MenuManagement.jsx:122-128 | both image sources are emptied; the text fields are untouched |
| Menu.ReplayKeepsExclusive | src/pages/MenuManagement.jsx:100-128 | after any sequence of edits, picks, URL entries, clears and resets, a file and a URL are never both set |
| Menu.ValidateDish | src/pages/MenuManagement.jsx:137-166 | the first failing check, in the page's order, is reported, ending with the price's `parseFloat` test |
| Menu.BuildDishRequest | src/pages/MenuManagement.jsx:183-212 | a refused form makes no call; a picked file makes a multipart call without URL; otherwise a JSON call carrying `image_url` exactly when it is non-empty |
| Menu.RequestCarriesFormImage | src/pages/MenuManagement.jsx:183-212 | on a form with exclusive image sources, an accepted call carries exactly the image source the form holds |
| Orders.FilteredOrders | src/pages/HistoryOrder.jsx:60-62 | all orders under "все", otherwise exactly the orders with that status, as an order-preserving subsequence keeping every occurrence |
| Orders.CancelOrder | src/pages/HistoryOrder.jsx:75-82 | same length and order; orders with the id become "отменен" after a confirmation; no other field or order changes |
| Orders.CancelIdempotent | src/pages/HistoryOrder.jsx:77-79 | cancelling twice is cancelling once |
| Orders.CancelMovesOrder | src/pages/HistoryOrder.jsx:75-82 | after cancelling, the order offers no cancel button, is listed under "отменен" and not under "в обработке" |
| Orders.StatusBadge | src/pages/HistoryOrder.jsx:46-57 | the grey badge shows the raw status; the others show the status with only its first letter changed |
| Orders.BadgeColourIff | src/pages/HistoryOrder.jsx:46-57 | green, yellow and red each belong to exactly one known status, and grey to every other status |
| Orders.SampleOrderTotalMismatch | src/pages/HistoryOrder.jsx:8-17 | order 1001 displays 165 while its lines add up to 170 |
| Orders.CorrectedOrdersTotalsMatch | src/pages/HistoryOrder.jsx:6-40 | in the sample orders with order 1001's total corrected to 170, every displayed total equals the sum of its lines |
| Orders.InitiallyNothingToCancel | src/pages/HistoryOrder.jsx:6-40 | none of the orders the page starts with is being processed, so no cancel button shows and the "в обработке" filter is empty |

## Left out

- Backend calls are not modelled: the health check, `getFullList`, `create` and `delete`. This covers `loadUsers`, `deleteUser`, `loadMenuItems` and `deleteMenuItem`, and the fallback data shown when the backend fails. They are network I/O. The outcome of a create call is a boolean parameter.
- `alert`, `console` and `window.confirm` are UI effects and are not modelled. A confirmation answer is a boolean parameter.
- The cart's load from and save to `localStorage`, with its JSON parsing, is browser storage I/O.
- `repeatOrder` only shows dialogs and navigates.
- The image preview through `FileReader` and the file input reset are UI state with no list logic.
- The `imageInputMode` switch (src/pages/MenuManagement.jsx:22, 498-560) is not modelled. Only the form fields it writes through the image handlers are. The mode also decides which image input is rendered, and so whether the browser's URL check below applies; it starts in the URL mode.
- The browser's own form checks are not modelled. They come from HTML attributes and run before `addMenuItem` and `addUser` are called at all. `Menu.BuildDishRequest` and `Roster.AddStudent` describe the handlers on whatever values reach them, which is a superset of what the browser lets through:
  - `required` on the dish name, description, ingredients and weight (src/pages/MenuManagement.jsx:421, 448, 461, 474), on the price, and on the student's names and id (src/pages/Users.jsx:299, 312, 342). An empty required field is stopped by the browser's message, so the "missing" alerts fire only for values of white space.
  - The price input is `type="number" min="0" step="0.01"` (src/pages/MenuManagement.jsx:482-489). A price such as "-5" or "0.001" is refused by the browser, although `BuildDishRequest` accepts it. A number input's value is always "" or a valid number, so the `PriceNotNumber` alert (src/pages/MenuManagement.jsx:162-166) cannot fire from the page. `Roster.DigitIdOnlyMissing` proves the analogous fact for the student id.
  - The image URL input is `type="url"` (src/pages/MenuManagement.jsx:541). A non-URL such as "abc" is refused by the browser in the URL mode, although `BuildDishRequest` sends it as `image_url`.
  - The student id input has `pattern="\d+"` (src/pages/Users.jsx:343). The change handler already keeps only digits.
- Text.ParsesAsFloat: only whether `parseFloat` gives NaN is modelled. The floating-point value sent as the price is not; the request carries the price text.
- Text.ParsesAsInt: only whether `parseInt` gives NaN is modelled. The integer value is never used by the page.
- Text.LowerChar: folds only ASCII A-Z and the Cyrillic capitals U+0400 to U+042F; every other character is left unchanged. This covers accented Latin capitals such as É (U+00C9) and Cyrillic capitals beyond U+042F such as Ґ (U+0490), which `toLowerCase` does fold. It also covers İ (U+0130), whose lower case is two code units, so there `toLowerCase` changes the length while `Text.Lower` keeps it.
- Listing.Tally: the histogram is a map, whereas the pages build it on a plain JavaScript object `{}`. Keys that name members of `Object.prototype` are not modelled. A class "toString" yields the string `(stats.toString || 0) + 1` instead of a count of 1, and a class "__proto__" is swallowed by the prototype setter, so no chip appears for it.
- The `localeCompare` ordering of the class chips is display order only. The chips are modelled as a map.
- The class and category option lists (src/pages/Users.jsx:20-27, src/pages/MenuManagement.jsx:26-28) only fill the drop-downs. Only the default values, "5а" and "супы", are modelled.
- Orders.StatusBadge: the contract does not describe the first letter of the capitalised labels. `Orders.BadgeColourIff` pins down which status gets which colour.
- Cart prices, quantities and totals are unbounded integers. JavaScript numbers are doubles, which hold integers exactly only up to 2^53.
- Routing, the login page and the unused SQL fetch wrapper are outside the model.
- The users collection schema is outside the model. Its class list differs from the form's.

## Findings

| source | as written | input that shows it | evidently intended | confidence | as-written member | corrected member |
|---|---|---|---|---|---|---|
| src/pages/HistoryOrder.jsx:11-16 | order 1001 is shown with total 165 | order 1001's detail table: 1 × 55 + 1 × 65 + 2 × 25 = 170, shown above the footer "Итого: 165 ₽" | the total equals the sum of the lines, as for orders 1002 and 1003 | not executed; medium (sample data) | Orders.SampleOrderTotalMismatch | Orders.CorrectedOrdersTotalsMatch |

=== FILE: cart.dfy ===
/** The shopping cart page: a list of line items, each a menu dish with a
    quantity, and the handlers that rewrite it. Every handler is read as
    "return the new cart" (the argument it passes to `setCart`). */
module Cart {
  import opened Wrappers
  import opened Listing

  /** A dish of the page's built-in menu. */
  datatype MenuItem = MenuItem(id: int, name: string, description: string, weight: string, price: int, image: string)

  /** A cart line: the dish's fields spread into a record with a quantity. */
  datatype LineItem = LineItem(id: int, name: string, description: string, weight: string, price: int, image: string, quantity: int)

  type Cart = seq<LineItem>

  /** The four dishes offered for quick adding, with their ids and prices. */
  const SampleMenu: seq<MenuItem> := [
    MenuItem(1, "Суп картофельный с бобовыми", "С горохом", "200 г", 55,
      "https://main-cdn.sbermegamarket.ru/big1/hlr-system/156/312/944/111/623/27/100045246787b0.jpg"),
    MenuItem(2, "Салат из свежих помидор и огурцов", "Овощной салат", "100 г", 65,
      "https://avatars.mds.yandex.net/i?id=929e6dd2bd2ca1cc8a5d29a62d62e6bfb4709a90-5255540-images-thumbs&n=13"),
    MenuItem(3, "Салат Цезарь", "Классический", "120 г", 80,
      "https://images-foodtech.magnit.ru/8g3vTR3-SR0-jFPIFjTLplegPoabO_JQbeHKoLXjZI8/rs:fit:1600:1600/plain/s3:/img-dostavka/uf/311/31144c68beed8ef8a6c9d03c33de791c/05f7d67d24f6f9d6b8c96e71cb5a84fd.jpeg@webp"),
    MenuItem(4, "Пирожное «Чоко пай»", "Шоколадное пирожное", "28 г", 25,
      "https://coffeespace.ru/upload/iblock/cf9/jek2k039jp34ixryo6ibkgl1d28b7lsw.jpg")
  ]

  /** No two lines share an id. */
  predicate UniqueIds(c: Cart)
  {
    forall i, j :: 0 <= i < j < |c| ==> c[i].id != c[j].id
  }

  /** Every line holds at least one unit. */
  predicate PositiveQuantities(c: Cart)
  {
    forall i :: 0 <= i < |c| ==> c[i].quantity >= 1
  }

  /** The cart invariant kept by every handler. */
  predicate Valid(c: Cart)
  {
    UniqueIds(c) && PositiveQuantities(c)
  }

  /** Some line has this id (`cart.find(item => item.id === id)` finds it). */
  predicate InCart(c: Cart, id: int)
  {
    exists i :: 0 <= i < |c| && c[i].id == id
  }

  function Subtotal(l: LineItem): int
  {
    l.price * l.quantity
  }

  function Quantity(l: LineItem): int
  {
    l.quantity
  }

  /** `cart.reduce((sum, item) => sum + item.price * item.quantity, 0)`. */
  function TotalAmount(c: Cart): int
  {
    SumBy(c, Subtotal)
  }

  /** The "Количество" summary: `cart.reduce((sum, item) => sum + item.quantity, 0)`. */
  function ItemCount(c: Cart): int
  {
    SumBy(c, Quantity)
  }

  /** The empty cart totals zero, and the total splits over concatenation. */
  lemma TotalAmountSplits(a: Cart, b: Cart)
    ensures TotalAmount([]) == 0
    ensures TotalAmount(a + b) == TotalAmount(a) + TotalAmount(b)
  {
    SumByAppend(a, b, Subtotal);
  }

  /** With every quantity at least one, the item count is at least the number of lines. */
  lemma {:induction false} ItemCountAtLeastLines(c: Cart)
    requires PositiveQuantities(c)
    ensures ItemCount(c) >= |c|
    decreases |c|
  {
    if |c| > 0 {
      ItemCountAtLeastLines(c[..|c| - 1]);
    }
  }

  /** The increase handler: one more unit on every line with this id. */
  function IncreaseQuantity(c: Cart, id: int): (r: Cart)
    ensures |r| == |c|
    ensures forall i :: 0 <= i < |c| ==> r[i].(quantity := c[i].quantity) == c[i]
    ensures forall i :: 0 <= i < |c| ==> r[i].quantity == c[i].quantity + (if c[i].id == id then 1 else 0)
  {
    seq(|c|, i requires 0 <= i < |c| => if c[i].id == id then c[i].(quantity := c[i].quantity + 1) else c[i])
  }

  /** The decrease handler: one unit fewer on lines with this id, but only
      where more than one unit is left. */
  function DecreaseQuantity(c: Cart, id: int): (r: Cart)
    ensures |r| == |c|
    ensures forall i :: 0 <= i < |c| ==> r[i].(quantity := c[i].quantity) == c[i]
    ensures forall i :: 0 <= i < |c| ==> r[i].quantity == c[i].quantity - (if c[i].id == id && c[i].quantity > 1 then 1 else 0)
  {
    seq(|c|, i requires 0 <= i < |c| =>
      if c[i].id == id && c[i].quantity > 1 then c[i].(quantity := c[i].quantity - 1) else c[i])
  }

  /** The lines a removal keeps. */
  function OtherThan(id: int): LineItem -> bool
  {
    (l: LineItem) => l.id != id
  }

  /** The remove handler, after `window.confirm` answered `confirmed`. */
  function RemoveItem(c: Cart, id: int, confirmed: bool): (r: Cart)
    ensures !confirmed ==> r == c
    ensures confirmed ==> forall l :: l in r <==> l in c && l.id != id
    ensures confirmed ==> IsSubsequence(r, c)
    ensures confirmed ==> forall l :: multiset(r)[l] == (if l.id != id then multiset(c)[l] else 0)
  {
    if confirmed then
      FilterIsSubsequence(c, OtherThan(id));
      Filter(c, OtherThan(id))
    else c
  }

  /** The clear handler: nothing happens on an empty cart or a declined
      confirmation; otherwise the cart is emptied. */
  function ClearCart(c: Cart, confirmed: bool): (r: Cart)
    ensures r == [] || r == c
    ensures r == [] <==> c == [] || confirmed
  {
    if |c| == 0 then c
    else if confirmed then []
    else c
  }

  /** What the checkout alert reports. */
  datatype CheckoutNotice = EmptyCartNotice | OrderPlaced(amount: int)

  datatype CheckoutResult = CheckoutResult(cart: Cart, notice: CheckoutNotice)

  /** The checkout handler: an empty cart is refused with a notice; a
      non-empty one is placed for its total and the cart emptied. */
  function Checkout(c: Cart): (r: CheckoutResult)
    ensures r.cart == []
    ensures r.notice.EmptyCartNotice? <==> c == []
    ensures r.notice.OrderPlaced? ==> r.notice.amount == TotalAmount(c)
  {
    if |c| == 0 then CheckoutResult(c, EmptyCartNotice)
    else CheckoutResult([], OrderPlaced(TotalAmount(c)))
  }

  /** `menuItems.find(item => item.id === id)`: the first dish with this id. */
  function FindMenuItem(menu: seq<MenuItem>, id: int): (r: Option<MenuItem>)
    ensures r.None? <==> forall i :: 0 <= i < |menu| ==> menu[i].id != id
    ensures r.Some? ==> exists k :: 0 <= k < |menu| && menu[k] == r.value && r.value.id == id
                                   && forall j :: 0 <= j < k ==> menu[j].id != id
    decreases |menu|
  {
    if |menu| == 0 then None
    else if menu[0].id == id then Some(menu[0])
    else FindMenuItem(menu[1..], id)
  }

  /** `{ ...menuItem, quantity: 1 }`. */
  function NewLine(m: MenuItem): (l: LineItem)
    ensures MenuItem(l.id, l.name, l.description, l.weight, l.price, l.image) == m
    ensures l.quantity == 1
  {
    LineItem(m.id, m.name, m.description, m.weight, m.price, m.image, 1)
  }

  /** The add-from-menu handler: an unknown dish changes nothing; a dish
      already in the cart gets one more unit; a new dish is appended with
      quantity one. */
  function AddFromMenu(menu: seq<MenuItem>, c: Cart, id: int): (r: Cart)
    ensures FindMenuItem(menu, id).None? ==> r == c
    ensures FindMenuItem(menu, id).Some? && InCart(c, id) ==> r == IncreaseQuantity(c, id)
    ensures FindMenuItem(menu, id).Some? && !InCart(c, id) ==> r == c + [NewLine(FindMenuItem(menu, id).value)]
    ensures |r| == |c| + (if FindMenuItem(menu, id).Some? && !InCart(c, id) then 1 else 0)
  {
    match FindMenuItem(menu, id)
    case None => c
    case Some(m) => if InCart(c, id) then IncreaseQuantity(c, id) else c + [NewLine(m)]
  }

  /** The quick-add buttons are shown only while the cart is empty, one per
      dish of the menu; a click on one appends a single new line for the
      first dish with that id. */
  lemma QuickAddOnEmptyCart(menu: seq<MenuItem>, k: int)
    requires 0 <= k < |menu|
    ensures FindMenuItem(menu, menu[k].id).Some?
    ensures AddFromMenu(menu, [], menu[k].id) == [NewLine(FindMenuItem(menu, menu[k].id).value)]
  {
  }

  lemma IncreasePreservesValid(c: Cart, id: int)
    requires Valid(c)
    ensures Valid(IncreaseQuantity(c, id))
  {
  }

  /** Decreasing never takes a quantity below one, and ids are untouched. */
  lemma DecreasePreservesValid(c: Cart, id: int)
    requires Valid(c)
    ensures Valid(DecreaseQuantity(c, id))
  {
  }

  /** Decreasing changes nothing exactly when every line with the id is at one unit or less. */
  lemma DecreaseNoOpIff(c: Cart, id: int)
    ensures DecreaseQuantity(c, id) == c <==> forall i :: 0 <= i < |c| && c[i].id == id ==> c[i].quantity <= 1
  {
    var r := DecreaseQuantity(c, id);
    if forall i :: 0 <= i < |c| && c[i].id == id ==> c[i].quantity <= 1 {
      assert forall i :: 0 <= i < |c| ==> r[i] == c[i];
    } else {
      var i :| 0 <= i < |c| && c[i].id == id && c[i].quantity > 1;
      assert r[i].quantity != c[i].quantity;
    }
  }

  /** On a cart whose quantities are all positive, decreasing undoes increasing. */
  lemma DecreaseUndoesIncrease(c: Cart, id: int)
    requires PositiveQuantities(c)
    ensures DecreaseQuantity(IncreaseQuantity(c, id), id) == c
  {
    var r := DecreaseQuantity(IncreaseQuantity(c, id), id);
    assert forall i :: 0 <= i < |c| ==> r[i] == c[i];
  }

  /** Removing an id filters the cart, so uniqueness and positivity carry over. */
  lemma {:induction false} RemovePreservesValid(c: Cart, id: int, confirmed: bool)
    requires Valid(c)
    ensures Valid(RemoveItem(c, id, confirmed))
  {
    if confirmed {
      FilterKeepsUnique(c, OtherThan(id));
    }
  }

  lemma {:induction false} FilterKeepsUnique(c: Cart, p: LineItem -> bool)
    requires Valid(c)
    ensures Valid(Filter(c, p))
    decreases |c|
  {
    if |c| > 0 {
      FilterKeepsUnique(c[1..], p);
      var rest := Filter(c[1..], p);
      if p(c[0]) {
        assert Filter(c, p) == [c[0]] + rest;
        forall l | l in rest ensures l.id != c[0].id {
          assert l in c[1..];
        }
        ConsValid(c[0], rest);
      } else {
        assert Filter(c, p) == rest;
      }
    }
  }

  /** A line whose id no other line has can be put in front of a valid cart. */
  lemma ConsValid(x: LineItem, rest: Cart)
    requires Valid(rest) && x.quantity >= 1
    requires forall l :: l in rest ==> l.id != x.id
    ensures Valid([x] + rest)
  {
    var r := [x] + rest;
    assert forall i :: 0 < i < |r| ==> r[i] == rest[i - 1];
  }

  /** After a confirmed removal no line has the id, and when exactly one line
      had it the cart is one line shorter and its total drops by that line's subtotal. */
  lemma RemoveEffect(c: Cart, id: int, k: int)
    requires UniqueIds(c) && 0 <= k < |c| && c[k].id == id
    ensures !InCart(RemoveItem(c, id, true), id)
    ensures |RemoveItem(c, id, true)| == |c| - 1
    ensures TotalAmount(RemoveItem(c, id, true)) == TotalAmount(c) - Subtotal(c[k])
  {
    FilterDropsOne(c, OtherThan(id), k);
    var g := (l: LineItem) => if l.id != id then Subtotal(l) else 0;
    var d := (l: LineItem) => if l.id == id then -Subtotal(l) else 0;
    SumByFilter(c, OtherThan(id), Subtotal, g);
    SumByPointwise(c, c, Subtotal, g, d);
    SumByOnly(c, d, k);
  }

  /** Increasing the line with the id adds its price to the total and one to the item count. */
  lemma IncreaseEffect(c: Cart, id: int, k: int)
    requires UniqueIds(c) && 0 <= k < |c| && c[k].id == id
    ensures TotalAmount(IncreaseQuantity(c, id)) == TotalAmount(c) + c[k].price
    ensures ItemCount(IncreaseQuantity(c, id)) == ItemCount(c) + 1
  {
    var r := IncreaseQuantity(c, id);
    var dp := (l: LineItem) => if l.id == id then l.price else 0;
    var dq := (l: LineItem) => if l.id == id then 1 else 0;
    SumByPointwise(c, r, Subtotal, Subtotal, dp);
    SumByOnly(c, dp, k);
    SumByPointwise(c, r, Quantity, Quantity, dq);
    SumByOnly(c, dq, k);
  }

  /** Increasing an id that no line has leaves the cart as it was. */
  lemma IncreaseAbsent(c: Cart, id: int)
    requires !InCart(c, id)
    ensures IncreaseQuantity(c, id) == c
  {
    var r := IncreaseQuantity(c, id);
    assert forall i :: 0 <= i < |c| ==> r[i] == c[i];
  }

  /** Adding from the menu keeps the cart invariant. */
  lemma AddFromMenuPreservesValid(menu: seq<MenuItem>, c: Cart, id: int)
    requires Valid(c)
    ensures Valid(AddFromMenu(menu, c, id))
  {
    var found := FindMenuItem(menu, id);
    if found.Some? && !InCart(c, id) {
      var r := AddFromMenu(menu, c, id);
      assert r[|c|].id == id;
      assert forall i :: 0 <= i < |c| ==> r[i] == c[i];
    }
  }

  /** Adding a dish the menu offers leaves exactly one line with its id, adds
      one unit to the item count, and adds one unit's price to the total. */
  lemma AddFromMenuEffect(menu: seq<MenuItem>, c: Cart, id: int)
    requires Valid(c) && FindMenuItem(menu, id).Some?
    ensures InCart(AddFromMenu(menu, c, id), id)
    ensures ItemCount(AddFromMenu(menu, c, id)) == ItemCount(c) + 1
    ensures InCart(c, id) ==>
              exists k :: 0 <= k < |c| && c[k].id == id && TotalAmount(AddFromMenu(menu, c, id)) == TotalAmount(c) + c[k].price
    ensures !InCart(c, id) ==> TotalAmount(AddFromMenu(menu, c, id)) == TotalAmount(c) + FindMenuItem(menu, id).value.price
  {
    var m := FindMenuItem(menu, id).value;
    var r := AddFromMenu(menu, c, id);
    if InCart(c, id) {
      var k :| 0 <= k < |c| && c[k].id == id;
      IncreaseEffect(c, id, k);
      assert r[k].id == id;
    } else {
      SumByAppend(c, [NewLine(m)], Subtotal);
      SumByAppend(c, [NewLine(m)], Quantity);
      assert [NewLine(m)][..0] == [];
      assert r[|c|].id == id;
    }
  }

  /** The quick-add buttons offer exactly the ids one to four. */
  lemma SampleMenuIds(id: int)
    ensures FindMenuItem(SampleMenu, id).Some? <==> 1 <= id <= 4
  {
    if 1 <= id <= 4 {
      assert SampleMenu[id - 1].id == id;
    }
  }
}

=== FILE: listing.dfy ===
/** The list shapes the pages build from their record arrays: an
    order-preserving filter, a left-to-right sum, and a histogram of
    optional string keys (`stats[key] = (stats[key] || 0) + 1`). */
module Listing {
  import opened Wrappers

  /** `Array.prototype.filter`: the elements of `xs` that satisfy `p`, in their order. */
  function Filter<T(==, !new)>(xs: seq<T>, p: T -> bool): (r: seq<T>)
    ensures |r| <= |xs|
    ensures forall x :: x in r <==> x in xs && p(x)
    ensures forall x {:trigger multiset(r)[x]} :: multiset(r)[x] == (if p(x) then multiset(xs)[x] else 0)
    decreases |xs|
  {
    if |xs| == 0 then []
    else
      assert xs == [xs[0]] + xs[1..];
      if p(xs[0]) then [xs[0]] + Filter(xs[1..], p)
      else Filter(xs[1..], p)
  }

  /** `Array.prototype.map`: `f` applied to each element, in order. */
  function Map<T, U>(xs: seq<T>, f: T -> U): (r: seq<U>)
    ensures |r| == |xs|
    ensures forall i :: 0 <= i < |xs| ==> r[i] == f(xs[i])
  {
    seq(|xs|, i requires 0 <= i < |xs| => f(xs[i]))
  }

  /** `a` can be obtained from `b` by deleting elements, without reordering. */
  ghost predicate IsSubsequence<T(!new)>(a: seq<T>, b: seq<T>)
    decreases |b|
  {
    if |a| == 0 then true
    else if |b| == 0 then false
    else (a[0] == b[0] && IsSubsequence(a[1..], b[1..])) || IsSubsequence(a, b[1..])
  }

  lemma {:induction false} FilterIsSubsequence<T(!new)>(xs: seq<T>, p: T -> bool)
    ensures IsSubsequence(Filter(xs, p), xs)
    decreases |xs|
  {
    if |xs| > 0 {
      FilterIsSubsequence(xs[1..], p);
      var r := Filter(xs, p);
      if p(xs[0]) {
        assert r[0] == xs[0] && r[1..] == Filter(xs[1..], p);
      }
    }
  }

  /** The filter returns its input unchanged exactly when every element passes. */
  lemma {:induction false} FilterKeepsAll<T(!new)>(xs: seq<T>, p: T -> bool)
    ensures Filter(xs, p) == xs <==> forall i :: 0 <= i < |xs| ==> p(xs[i])
    decreases |xs|
  {
    if forall i :: 0 <= i < |xs| ==> p(xs[i]) {
      if |xs| > 0 {
        assert forall i :: 0 <= i < |xs[1..]| ==> p(xs[1..][i]) by {
          forall i | 0 <= i < |xs[1..]| ensures p(xs[1..][i]) {
            assert xs[1..][i] == xs[i + 1];
          }
        }
        FilterKeepsAll(xs[1..], p);
        assert p(xs[0]);
        assert xs == [xs[0]] + xs[1..];
      }
    } else {
      var i :| 0 <= i < |xs| && !p(xs[i]);
      var r := Filter(xs, p);
      assert i < |r| ==> p(r[i]);
    }
  }

  /** Filtering leaves nothing exactly when no element passes. */
  lemma {:induction false} FilterEmptyIff<T(!new)>(xs: seq<T>, p: T -> bool)
    ensures Filter(xs, p) == [] <==> forall i :: 0 <= i < |xs| ==> !p(xs[i])
    decreases |xs|
  {
    if |xs| > 0 {
      FilterEmptyIff(xs[1..], p);
      assert forall i :: 0 < i < |xs| ==> xs[i] == xs[1..][i - 1];
    }
  }

  /** Filtering a list with a given first element. */
  lemma FilterCons<T(!new)>(x: T, ys: seq<T>, p: T -> bool)
    ensures Filter([x] + ys, p) == (if p(x) then [x] + Filter(ys, p) else Filter(ys, p))
  {
    var xs := [x] + ys;
    assert xs[0] == x && xs[1..] == ys;
  }

  /** The filtered length of a concatenation is the sum of the filtered lengths. */
  lemma {:induction false} FilterLengthAppend<T(!new)>(a: seq<T>, b: seq<T>, p: T -> bool)
    ensures |Filter(a + b, p)| == |Filter(a, p)| + |Filter(b, p)|
    decreases |a|
  {
    if |a| == 0 {
      assert a + b == b;
    } else {
      var x, rest := a[0], a[1..];
      assert a == [x] + rest;
      assert a + b == [x] + (rest + b);
      FilterLengthAppend(rest, b, p);
      FilterCons(x, rest + b, p);
      FilterCons(x, rest, p);
    }
  }

  /** `xs.reduce((sum, x) => sum + f(x), 0)`: the sum is folded from the left. */
  function SumBy<T>(xs: seq<T>, f: T -> int): int
    decreases |xs|
  {
    if |xs| == 0 then 0 else SumBy(xs[..|xs| - 1], f) + f(xs[|xs| - 1])
  }

  lemma {:induction false} SumByAppend<T>(a: seq<T>, b: seq<T>, f: T -> int)
    ensures SumBy(a + b, f) == SumBy(a, f) + SumBy(b, f)
    decreases |b|
  {
    if |b| == 0 {
      assert a + b == a;
    } else {
      SumByAppend(a, b[..|b| - 1], f);
      assert (a + b)[..|a + b| - 1] == a + b[..|b| - 1];
    }
  }

  /** The left fold agrees with the right fold: the first element can be split off. */
  lemma SumByCons<T>(x: T, xs: seq<T>, f: T -> int)
    ensures SumBy([x] + xs, f) == f(x) + SumBy(xs, f)
  {
    SumByAppend([x], xs, f);
    assert [x][..0] == [];
  }

  /** Sums of two equally long lists that differ pointwise by `d` differ by the sum of `d`. */
  lemma {:induction false} SumByPointwise<T, U>(xs: seq<T>, ys: seq<U>, f: T -> int, g: U -> int, d: T -> int)
    requires |xs| == |ys|
    requires forall i :: 0 <= i < |xs| ==> g(ys[i]) == f(xs[i]) + d(xs[i])
    ensures SumBy(ys, g) == SumBy(xs, f) + SumBy(xs, d)
    decreases |xs|
  {
    if |xs| > 0 {
      var n := |xs| - 1;
      SumByPointwise(xs[..n], ys[..n], f, g, d);
    }
  }

  lemma {:induction false} SumByZero<T>(xs: seq<T>, d: T -> int)
    requires forall i :: 0 <= i < |xs| ==> d(xs[i]) == 0
    ensures SumBy(xs, d) == 0
    decreases |xs|
  {
    if |xs| > 0 {
      SumByZero(xs[..|xs| - 1], d);
    }
  }

  /** When `d` vanishes everywhere but at index `k`, the sum is `d` there. */
  lemma {:induction false} SumByOnly<T>(xs: seq<T>, d: T -> int, k: int)
    requires 0 <= k < |xs|
    requires forall i :: 0 <= i < |xs| && i != k ==> d(xs[i]) == 0
    ensures SumBy(xs, d) == d(xs[k])
    decreases |xs|
  {
    var n := |xs| - 1;
    if k == n {
      SumByZero(xs[..n], d);
    } else {
      SumByOnly(xs[..n], d, k);
    }
  }

  /** Summing the filtered list is summing `f` where `p` holds and zero elsewhere. */
  lemma {:induction false} SumByFilter<T(!new)>(xs: seq<T>, p: T -> bool, f: T -> int, g: T -> int)
    requires forall i :: 0 <= i < |xs| ==> g(xs[i]) == (if p(xs[i]) then f(xs[i]) else 0)
    ensures SumBy(Filter(xs, p), f) == SumBy(xs, g)
    decreases |xs|
  {
    if |xs| > 0 {
      var rest := Filter(xs[1..], p);
      SumByFilter(xs[1..], p, f, g);
      SumByCons(xs[0], xs[1..], g);
      assert xs == [xs[0]] + xs[1..];
      if p(xs[0]) {
        assert Filter(xs, p) == [xs[0]] + rest;
        SumByCons(xs[0], rest, f);
      } else {
        assert Filter(xs, p) == rest;
      }
    }
  }

  /** Filtering out exactly one element shortens the list by one. */
  lemma {:induction false} FilterDropsOne<T(!new)>(xs: seq<T>, p: T -> bool, k: int)
    requires 0 <= k < |xs| && !p(xs[k])
    requires forall i :: 0 <= i < |xs| && i != k ==> p(xs[i])
    ensures |Filter(xs, p)| == |xs| - 1
    decreases |xs|
  {
    if k == 0 {
      FilterKeepsAll(xs[1..], p);
    } else {
      FilterDropsOne(xs[1..], p, k - 1);
    }
  }

  /** A histogram key counts when it is present and non-empty (JavaScript truthiness). */
  predicate Present(k: Option<string>)
  {
    k.Some? && k.value != ""
  }

  /** `stats[k] = (stats[k] || 0) + 1`: one more occurrence of `k`. */
  function Bump(m: map<string, nat>, k: string): map<string, nat>
  {
    m[k := (if k in m then m[k] else 0) + 1]
  }

  /** `keys.forEach(k => { if (k) stats[k] = (stats[k] || 0) + 1 })`, visiting keys in order. */
  function Tally(keys: seq<Option<string>>): (m: map<string, nat>)
    ensures forall k :: k in m <==> k != "" && Some(k) in keys
    ensures forall k :: k in m ==> m[k] == multiset(keys)[Some(k)]
    decreases |keys|
  {
    if |keys| == 0 then map[]
    else
      var front := keys[..|keys| - 1];
      var key := keys[|keys| - 1];
      assert keys == front + [key];
      var m := Tally(front);
      if Present(key) then Bump(m, key.value) else m
  }

  /** The `if (k)` guard: an empty or missing value never becomes a key, every
      key has occurred at least once (no bucket is invented), and a non-empty
      value that is not a key does not occur. */
  lemma TallyAbsent(keys: seq<Option<string>>, k: string)
    ensures "" !in Tally(keys)
    ensures k in Tally(keys) ==> multiset(keys)[Some(k)] > 0
    ensures k != "" && k !in Tally(keys) ==> multiset(keys)[Some(k)] == 0
  {
  }

  /** Values the guard skips contribute nothing: tallying only the present
      values gives the same histogram. */
  lemma TallyIgnoresAbsent(keys: seq<Option<string>>)
    ensures Tally(Filter(keys, Present)) == Tally(keys)
  {
  }

  /** The sum of the values of a map. */
  ghost function SumOf(m: map<string, nat>): nat
    decreases |m|
  {
    if |m| == 0 then 0
    else
      var k := PickKey(m);
      m[k] + SumOf(m - {k})
  }

  /** Some key of a non-empty map; removing it shrinks the map by one. */
  ghost function PickKey(m: map<string, nat>): (k: string)
    requires |m| > 0
    ensures k in m
    ensures |m - {k}| == |m| - 1
  {
    assert m.Keys != {};
    var k :| k in m.Keys;
    assert (m - {k}).Keys == m.Keys - {k};
    k
  }

  /** The sum does not depend on which key is taken out first. */
  lemma {:induction false} SumOfRemove(m: map<string, nat>, k: string)
    requires k in m
    ensures SumOf(m) == m[k] + SumOf(m - {k})
    decreases |m|
  {
    var j := PickKey(m);
    if j != k {
      SumOfRemove(m - {j}, k);
      SumOfRemove(m - {k}, j);
      assert m - {j} - {k} == m - {k} - {j};
    }
  }

  lemma SumOfUpdate(m: map<string, nat>, k: string, v: nat)
    ensures SumOf(m[k := v]) == SumOf(m - {k}) + v
  {
    SumOfRemove(m[k := v], k);
    assert m[k := v] - {k} == m - {k};
  }

  /** Adding one to a key's count (starting from zero when absent) adds one to the sum. */
  lemma SumOfIncrement(m: map<string, nat>, v: string)
    ensures SumOf(Bump(m, v)) == SumOf(m) + 1
  {
    var c: nat := (if v in m then m[v] else 0) + 1;
    assert Bump(m, v) == m[v := c];
    SumOfUpdate(m, v, c);
    if v in m {
      SumOfRemove(m, v);
    } else {
      assert m - {v} == m;
    }
  }

  /** One more key updates the histogram built from the keys before it. */
  lemma TallyStep(front: seq<Option<string>>, key: Option<string>)
    ensures Present(key) ==> Tally(front + [key]) == Bump(Tally(front), key.value)
    ensures !Present(key) ==> Tally(front + [key]) == Tally(front)
  {
    var keys := front + [key];
    assert keys[..|keys| - 1] == front;
  }

  /** Appending one key adds one to the histogram's sum exactly when the key is present. */
  lemma TallySumStep(front: seq<Option<string>>, key: Option<string>)
    ensures SumOf(Tally(front + [key])) == SumOf(Tally(front)) + (if Present(key) then 1 else 0)
  {
    TallyStep(front, key);
    if Present(key) {
      var m := Tally(front);
      SumOfIncrement(m, key.value);
      assert Tally(front + [key]) == Bump(m, key.value);
    }
  }

  /** Appending one element adds one to the filtered length exactly when it passes. */
  lemma FilterLengthStep<T(!new)>(front: seq<T>, x: T, p: T -> bool)
    ensures |Filter(front + [x], p)| == |Filter(front, p)| + (if p(x) then 1 else 0)
  {
    FilterLengthAppend(front, [x], p);
    FilterCons(x, [], p);
    assert [x] + [] == [x];
  }

  /** The histogram's counts add up to the number of present keys. */
  lemma {:induction false} TallySum(keys: seq<Option<string>>)
    ensures SumOf(Tally(keys)) == |Filter(keys, Present)|
    decreases |keys|
  {
    if |keys| > 0 {
      var front := keys[..|keys| - 1];
      assert keys == front + [keys[|keys| - 1]];
      TallySum(front);
      TallySumStep(front, keys[|keys| - 1]);
      FilterLengthStep(front, keys[|keys| - 1], Present);
    }
  }
}

=== FILE: menu.dfy ===
/** The menu management page: the search-and-category filter over the dish
    list, the category statistics, the display URL of a dish's picture, and
    the add-dish form with its image source and validation chain. */
module Menu {
  import opened Wrappers
  import opened Text
  import opened Listing

  /** The `image` field of a dish row: absent, a stored file name, or some
      value that is not a string (which the display rule skips). */
  datatype ImageField = NoImage | ImageName(name: string) | NonTextImage

  /** A row of the `dishes` collection; fields the backend may omit are optional. */
  datatype Dish = Dish(
    id: string,
    name: Option<string>,
    description: Option<string>,
    ingredients: Option<string>,
    category: Option<string>,
    weight: string,
    price: string,
    image: ImageField,
    imageUrl: Option<string>,
    photo: Option<string>)

  /** The category filter's "every category" value. */
  const AllCategories: string := "all"

  const DefaultCategory: string := "супы"

  predicate MatchesSearch(d: Dish, search: string)
  {
    search == "" || FoldedIncludes(d.name, search) || FoldedIncludes(d.description, search) || FoldedIncludes(d.ingredients, search)
  }

  predicate MatchesCategory(d: Dish, selected: string)
  {
    selected == AllCategories || d.category == Some(selected)
  }

  function Shown(search: string, selected: string): Dish -> bool
  {
    (d: Dish) => MatchesSearch(d, search) && MatchesCategory(d, selected)
  }

  /** `filteredMenuItems`: the dishes passing both tests, in list order. */
  function FilteredMenuItems(items: seq<Dish>, search: string, selected: string): (r: seq<Dish>)
    ensures forall d :: d in r <==> d in items && MatchesSearch(d, search) && MatchesCategory(d, selected)
    ensures IsSubsequence(r, items)
    ensures forall d :: multiset(r)[d] == (if MatchesSearch(d, search) && MatchesCategory(d, selected) then multiset(items)[d] else 0)
    ensures search == "" && selected == AllCategories ==> r == items
    ensures selected != AllCategories ==> forall d :: d in r ==> d.category == Some(selected)
  {
    FilterIsSubsequence(items, Shown(search, selected));
    FilterKeepsAll(items, Shown(search, selected));
    Filter(items, Shown(search, selected))
  }

  /** With a non-empty query, a dish whose name, description and ingredients
      are all missing is never shown. */
  lemma MissingFieldsNeverMatch(d: Dish, search: string)
    requires search != "" && d.name.None? && d.description.None? && d.ingredients.None?
    ensures !MatchesSearch(d, search)
  {
  }

  /** The search test in positional terms: the folded query occurs in one of the folded fields. */
  lemma SearchIffOccurs(d: Dish, search: string)
    ensures MatchesSearch(d, search) <==>
      || search == ""
      || (d.name.Some? && exists i :: OccursAt(Lower(d.name.value), Lower(search), i))
      || (d.description.Some? && exists i :: OccursAt(Lower(d.description.value), Lower(search), i))
      || (d.ingredients.Some? && exists i :: OccursAt(Lower(d.ingredients.value), Lower(search), i))
  {
    if d.name.Some? {
      ContainsIffOccurs(Lower(d.name.value), Lower(search));
    }
    if d.description.Some? {
      ContainsIffOccurs(Lower(d.description.value), Lower(search));
    }
    if d.ingredients.Some? {
      ContainsIffOccurs(Lower(d.ingredients.value), Lower(search));
    }
  }

  /** The category of every dish, in list order. */
  function CategoriesOf(items: seq<Dish>): (ks: seq<Option<string>>)
    ensures |ks| == |items|
    ensures forall i :: 0 <= i < |items| ==> ks[i] == items[i].category
  {
    Map(items, (d: Dish) => d.category)
  }

  /** `categoryStats`: each non-empty category some dish has, with the number of such dishes. */
  function CategoryStats(items: seq<Dish>): (m: map<string, nat>)
    ensures forall c :: c in m <==> c != "" && exists i :: 0 <= i < |items| && items[i].category == Some(c)
    ensures forall c :: c in m ==> m[c] == multiset(CategoriesOf(items))[Some(c)]
  {
    Tally(CategoriesOf(items))
  }

  /** The category counts add up to the number of dishes that have a category. */
  lemma CategoryStatsSum(items: seq<Dish>)
    ensures SumOf(CategoryStats(items)) == |Filter(CategoriesOf(items), Present)|
  {
    TallySum(CategoriesOf(items));
  }

  const FilesBase: string := "https://pb.dev.zavidovo.school/api/files/dishes/"

  /** The backend's download URL of a file stored on a dish record. */
  function FileUrl(id: string, file: string): (r: string)
    ensures |r| == |FilesBase| + |id| + 1 + |file|
    ensures IsPrefix(FilesBase, r) && r[|FilesBase| + |id|] == '/'
    ensures r[|FilesBase|..|FilesBase| + |id|] == id && r[|r| - |file|..] == file
  {
    FilesBase + id + "/" + file
  }

  /** `item.image && typeof item.image === 'string'`. */
  predicate HasImageName(d: Dish)
  {
    d.image.ImageName? && d.image.name != ""
  }

  /** `getImageUrl`: a stored image file wins, then the `image_url` text as
      it is, then a stored `photo` file; otherwise no picture. */
  function GetImageUrl(item: Option<Dish>): (r: string)
    ensures item.None? ==> r == ""
    ensures item.Some? && HasImageName(item.value) ==> r == FileUrl(item.value.id, item.value.image.name)
    ensures item.Some? && !HasImageName(item.value) && Present(item.value.imageUrl) ==> r == item.value.imageUrl.value
    ensures item.Some? && !HasImageName(item.value) && !Present(item.value.imageUrl) && Present(item.value.photo) ==>
              r == FileUrl(item.value.id, item.value.photo.value)
    ensures r == "" <==>
      item.None? || (!HasImageName(item.value) && !Present(item.value.imageUrl) && !Present(item.value.photo))
  {
    match item
    case None => ""
    case Some(d) =>
      if HasImageName(d) then FileUrl(d.id, d.image.name)
      else if Present(d.imageUrl) then d.imageUrl.value
      else if Present(d.photo) then FileUrl(d.id, d.photo.value)
      else ""
  }

  /** A stored image file decides the picture whatever `image_url` and `photo` hold. */
  lemma ImageNameWins(d: Dish, url: Option<string>, photo: Option<string>)
    requires HasImageName(d)
    ensures GetImageUrl(Some(d.(imageUrl := url, photo := photo))) == GetImageUrl(Some(d))
  {
  }

  /** A file picked in the form. */
  datatype FileRef = FileRef(name: string, size: nat)

  /** The add-dish form. */
  datatype DishForm = DishForm(
    name: string,
    description: string,
    ingredients: string,
    category: string,
    weight: string,
    price: string,
    imageFile: Option<FileRef>,
    imageUrl: string)

  const EmptyDishForm: DishForm := DishForm("", "", "", DefaultCategory, "", "", None, "")

  /** At most one image source is filled in. */
  predicate ImageExclusive(f: DishForm)
  {
    f.imageFile.None? || f.imageUrl == ""
  }

  /** `handleFileSelect`: a picked file replaces the URL; no file changes nothing. */
  function SelectFile(f: DishForm, file: Option<FileRef>): (r: DishForm)
    ensures file.None? ==> r == f
    ensures file.Some? ==> r.imageFile == file && r.imageUrl == ""
    ensures r.(imageFile := f.imageFile, imageUrl := f.imageUrl) == f
    ensures ImageExclusive(f) ==> ImageExclusive(r)
  {
    if file.Some? then f.(imageFile := file, imageUrl := "") else f
  }

  /** `handleImageUrlChange`: typing a URL drops any picked file. */
  function ChangeImageUrl(f: DishForm, url: string): (r: DishForm)
    ensures r.imageUrl == url && r.imageFile.None?
    ensures r.(imageFile := f.imageFile, imageUrl := f.imageUrl) == f
    ensures ImageExclusive(r)
  {
    f.(imageUrl := url, imageFile := None)
  }

  /** `clearImage`: both image sources are emptied. */
  function ClearImage(f: DishForm): (r: DishForm)
    ensures r.imageUrl == "" && r.imageFile.None?
    ensures r.(imageFile := f.imageFile, imageUrl := f.imageUrl) == f
    ensures ImageExclusive(r)
  {
    f.(imageFile := None, imageUrl := "")
  }

  /** Everything the user can do to the form. */
  datatype FormEvent =
    | EditName(text: string)
    | EditDescription(text: string)
    | EditIngredients(text: string)
    | PickCategory(text: string)
    | EditWeight(text: string)
    | EditPrice(text: string)
    | PickFile(file: Option<FileRef>)
    | TypeImageUrl(text: string)
    | PressClearImage
    | CreateSucceeded

  function Apply(f: DishForm, e: FormEvent): DishForm
  {
    match e
    case EditName(t) => f.(name := t)
    case EditDescription(t) => f.(description := t)
    case EditIngredients(t) => f.(ingredients := t)
    case PickCategory(t) => f.(category := t)
    case EditWeight(t) => f.(weight := t)
    case EditPrice(t) => f.(price := t)
    case PickFile(file) => SelectFile(f, file)
    case TypeImageUrl(t) => ChangeImageUrl(f, t)
    case PressClearImage => ClearImage(f)
    case CreateSucceeded => EmptyDishForm
  }

  /** The form after a sequence of events, applied in order. */
  function Replay(f: DishForm, events: seq<FormEvent>): DishForm
    decreases |events|
  {
    if |events| == 0 then f else Replay(Apply(f, events[0]), events[1..])
  }

  /** However the form is used, a picked file and a typed URL are never both set. */
  lemma {:induction false} ReplayKeepsExclusive(f: DishForm, events: seq<FormEvent>)
    requires ImageExclusive(f)
    ensures ImageExclusive(Replay(f, events))
    decreases |events|
  {
    if |events| > 0 {
      ReplayKeepsExclusive(Apply(f, events[0]), events[1..]);
    }
  }

  /** The alerts of the validation chain, in the order the page checks them. */
  datatype DishError = MissingName | MissingDescription | MissingIngredients | MissingWeight | MissingPrice | PriceNotNumber

  /** The text fields sent with a new dish; `price` is the text that was parsed. */
  datatype DishFields = DishFields(name: string, description: string, ingredients: string, category: string, weight: string, price: string)

  /** The create call: form data with the picked file, or a plain object with
      the image URL when one was typed. */
  datatype DishRequest =
    | MultipartCreate(fields: DishFields, file: FileRef)
    | JsonCreate(fields: DishFields, imageUrl: Option<string>)

  /** `addMenuItem`'s checks: the first failing one is reported. */
  function ValidateDish(f: DishForm): (r: Option<DishError>)
    ensures r == Some(MissingName) <==> IsBlank(f.name)
    ensures r == Some(MissingDescription) <==> !IsBlank(f.name) && IsBlank(f.description)
    ensures r == Some(MissingIngredients) <==> !IsBlank(f.name) && !IsBlank(f.description) && IsBlank(f.ingredients)
    ensures r == Some(MissingWeight) <==>
      !IsBlank(f.name) && !IsBlank(f.description) && !IsBlank(f.ingredients) && IsBlank(f.weight)
    ensures r == Some(MissingPrice) <==>
      !IsBlank(f.name) && !IsBlank(f.description) && !IsBlank(f.ingredients) && !IsBlank(f.weight) && IsBlank(f.price)
    ensures r == Some(PriceNotNumber) <==>
      !IsBlank(f.name) && !IsBlank(f.description) && !IsBlank(f.ingredients) && !IsBlank(f.weight) && !IsBlank(f.price)
      && !ParsesAsFloat(f.price)
  {
    if IsBlank(f.name) then Some(MissingName)
    else if IsBlank(f.description) then Some(MissingDescription)
    else if IsBlank(f.ingredients) then Some(MissingIngredients)
    else if IsBlank(f.weight) then Some(MissingWeight)
    else if IsBlank(f.price) then Some(MissingPrice)
    else if !ParsesAsFloat(f.price) then Some(PriceNotNumber)
    else None
  }

  /** `addMenuItem` on the form's values: a refused form makes no create call; otherwise a
      picked file is uploaded and no URL is sent, and without a file a
      non-empty URL travels as `image_url`. */
  function BuildDishRequest(f: DishForm): (r: Result<DishRequest, DishError>)
    ensures r.Failure? <==> ValidateDish(f).Some?
    ensures r.Failure? ==> r.error == ValidateDish(f).value
    ensures r.Success? ==> r.value.fields == DishFields(f.name, f.description, f.ingredients, f.category, f.weight, f.price)
    ensures r.Success? ==> (r.value.MultipartCreate? <==> f.imageFile.Some?)
    ensures r.Success? && r.value.MultipartCreate? ==> r.value.file == f.imageFile.value
    ensures r.Success? && r.value.JsonCreate? ==> r.value.imageUrl == (if f.imageUrl == "" then None else Some(f.imageUrl))
  {
    match ValidateDish(f)
    case Some(e) => Failure(e)
    case None =>
      var fields := DishFields(f.name, f.description, f.ingredients, f.category, f.weight, f.price);
      if f.imageFile.Some? then Success(MultipartCreate(fields, f.imageFile.value))
      else Success(JsonCreate(fields, if f.imageUrl != "" then Some(f.imageUrl) else None))
  }

  /** The image source a form shows, read URL-first. */
  datatype ImageChoice = FileChoice(file: FileRef) | UrlChoice(url: string) | NoChoice

  function FormImage(f: DishForm): ImageChoice
  {
    if f.imageUrl != "" then UrlChoice(f.imageUrl)
    else if f.imageFile.Some? then FileChoice(f.imageFile.value)
    else NoChoice
  }

  function RequestImage(q: DishRequest): ImageChoice
  {
    match q
    case MultipartCreate(_, file) => FileChoice(file)
    case JsonCreate(_, url) => if url.Some? then UrlChoice(url.value) else NoChoice
  }

  /** On a form that keeps the two sources exclusive, an accepted create call
      carries exactly the image source the form shows, whichever one is read first. */
  lemma RequestCarriesFormImage(f: DishForm)
    requires ImageExclusive(f)
    ensures BuildDishRequest(f).Success? ==> RequestImage(BuildDishRequest(f).value) == FormImage(f)
  {
  }
}

=== FILE: orders.dfy ===
/** The order history page: the status filter, the cancel action, the
    status badges, and the sample orders the page starts with. */
module Orders {
  import opened Listing

  datatype OrderItem = OrderItem(name: string, quantity: int, price: int)

  datatype Order = Order(id: int, date: string, time: string, total: int, status: string, items: seq<OrderItem>)

  /** The status filter's "every status" value. */
  const AllStatuses: string := "все"
  const Completed: string := "выполнен"
  const Processing: string := "в обработке"
  const Cancelled: string := "отменен"

  predicate MatchesStatus(o: Order, filter: string)
  {
    filter == AllStatuses || o.status == filter
  }

  function WithStatus(filter: string): Order -> bool
  {
    (o: Order) => MatchesStatus(o, filter)
  }

  /** `filteredOrders`: every order under "все", otherwise exactly the orders
      with the chosen status, in their order. */
  function FilteredOrders(orders: seq<Order>, filter: string): (r: seq<Order>)
    ensures forall o :: o in r <==> o in orders && (filter == AllStatuses || o.status == filter)
    ensures IsSubsequence(r, orders)
    ensures forall o :: multiset(r)[o] == (if filter == AllStatuses || o.status == filter then multiset(orders)[o] else 0)
    ensures filter == AllStatuses ==> r == orders
  {
    FilterIsSubsequence(orders, WithStatus(filter));
    FilterKeepsAll(orders, WithStatus(filter));
    Filter(orders, WithStatus(filter))
  }

  /** The cancel button is offered only on an order being processed. */
  predicate CanCancel(o: Order)
  {
    o.status == Processing
  }

  /** `cancelOrder`, after `window.confirm` answered `confirmed`: every order
      with the id is marked cancelled and nothing else changes. */
  function CancelOrder(orders: seq<Order>, id: int, confirmed: bool): (r: seq<Order>)
    ensures |r| == |orders|
    ensures forall i :: 0 <= i < |orders| ==> r[i].(status := orders[i].status) == orders[i]
    ensures forall i :: 0 <= i < |orders| ==>
              r[i].status == (if confirmed && orders[i].id == id then Cancelled else orders[i].status)
  {
    if confirmed then
      seq(|orders|, i requires 0 <= i < |orders| => if orders[i].id == id then orders[i].(status := Cancelled) else orders[i])
    else orders
  }

  /** Cancelling twice is cancelling once. */
  lemma CancelIdempotent(orders: seq<Order>, id: int, confirmed: bool)
    ensures CancelOrder(CancelOrder(orders, id, confirmed), id, confirmed) == CancelOrder(orders, id, confirmed)
  {
    var once := CancelOrder(orders, id, confirmed);
    var twice := CancelOrder(once, id, confirmed);
    assert forall i :: 0 <= i < |orders| ==> twice[i] == once[i];
  }

  /** After a confirmed cancel the order no longer offers cancelling, it is
      listed under "отменен" and no longer under "в обработке". */
  lemma CancelMovesOrder(orders: seq<Order>, id: int)
    ensures forall o :: o in CancelOrder(orders, id, true) && o.id == id ==> !CanCancel(o)
    ensures forall o :: o in FilteredOrders(CancelOrder(orders, id, true), Processing) ==> o.id != id
    ensures forall i :: 0 <= i < |orders| && orders[i].id == id ==>
              orders[i].(status := Cancelled) in FilteredOrders(CancelOrder(orders, id, true), Cancelled)
  {
    var r := CancelOrder(orders, id, true);
    forall i | 0 <= i < |orders| && orders[i].id == id
      ensures orders[i].(status := Cancelled) in FilteredOrders(r, Cancelled)
    {
      assert r[i] == orders[i].(status := Cancelled);
      assert r[i] in r;
    }
  }

  /** The badge colours of the status labels. */
  datatype BadgeColour = SuccessColour | WarningColour | DangerColour | SecondaryColour

  datatype Badge = Badge(colour: BadgeColour, caption: string)

  /** `getStatusBadge`: the three known statuses get a fixed colour and a
      capitalised label; any other status is shown as it is in grey. */
  function StatusBadge(status: string): (b: Badge)
    ensures b.colour == SecondaryColour ==> b.caption == status
    ensures b.colour != SecondaryColour ==> |b.caption| == |status| > 0 && b.caption[1..] == status[1..]
  {
    if status == Completed then Badge(SuccessColour, "Выполнен")
    else if status == Processing then Badge(WarningColour, "В обработке")
    else if status == Cancelled then Badge(DangerColour, "Отменен")
    else Badge(SecondaryColour, status)
  }

  /** Each colour but grey belongs to exactly one status. */
  lemma BadgeColourIff(status: string)
    ensures StatusBadge(status).colour == SuccessColour <==> status == Completed
    ensures StatusBadge(status).colour == WarningColour <==> status == Processing
    ensures StatusBadge(status).colour == DangerColour <==> status == Cancelled
    ensures StatusBadge(status).colour == SecondaryColour <==> status != Completed && status != Processing && status != Cancelled
  {
  }

  function LineTotal(item: OrderItem): int
  {
    item.price * item.quantity
  }

  /** The sum of an order's lines, as the detail table shows them. */
  function ItemsTotal(items: seq<OrderItem>): int
  {
    SumBy(items, LineTotal)
  }

  /** An order's sum is the sum of all but its last line plus that line. */
  lemma ItemsTotalLast(items: seq<OrderItem>)
    requires |items| > 0
    ensures ItemsTotal(items) == ItemsTotal(items[..|items| - 1]) + LineTotal(items[|items| - 1])
  {
  }

  /** The orders the page starts with, as they are written in the page. */
  const SampleOrders: seq<Order> := [
    Order(1001, "15.03.2024", "12:30", 165, Completed, [
      OrderItem("Суп картофельный с бобовыми", 1, 55),
      OrderItem("Салат из свежих помидор и огурцов", 1, 65),
      OrderItem("Пирожное «Чоко пай»", 2, 25)]),
    Order(1002, "14.03.2024", "13:15", 80, Completed, [
      OrderItem("Салат Цезарь", 1, 80)]),
    Order(1003, "13.03.2024", "11:45", 120, Cancelled, [
      OrderItem("Суп картофельный с бобовыми", 2, 55),
      OrderItem("Компот", 1, 10)])
  ]

  /** Order 1001 shows a total of 165 above a detail table whose lines add up to 170. */
  lemma SampleOrderTotalMismatch()
    ensures SampleOrders[0].id == 1001
    ensures SampleOrders[0].total == 165
    ensures ItemsTotal(SampleOrders[0].items) == 170
  {
    var items := SampleOrders[0].items;
    ItemsTotalLast(items);
    ItemsTotalLast(items[..2]);
    ItemsTotalLast(items[..1]);
    assert items[..2][..1] == items[..1];
    assert items[..1][..0] == [];
  }

  /** The sample orders with order 1001's total matching its lines. */
  const CorrectedOrders: seq<Order> := SampleOrders[0 := SampleOrders[0].(total := 170)]

  /** In the corrected sample data every displayed total is the sum of its lines. */
  lemma CorrectedOrdersTotalsMatch()
    ensures forall i :: 0 <= i < |CorrectedOrders| ==> CorrectedOrders[i].total == ItemsTotal(CorrectedOrders[i].items)
  {
    SampleOrderTotalMismatch();
    assert CorrectedOrders[0].items == SampleOrders[0].items;
    var b := CorrectedOrders[1].items;
    ItemsTotalLast(b);
    assert b[..0] == [];
    var c := CorrectedOrders[2].items;
    ItemsTotalLast(c);
    ItemsTotalLast(c[..1]);
    assert c[..1][..0] == [];
  }

  /** None of the orders the page starts with is being processed, so no
      cancel button is shown at first and the "в обработке" filter is empty. */
  lemma InitiallyNothingToCancel()
    ensures forall i :: 0 <= i < |SampleOrders| ==> !CanCancel(SampleOrders[i])
    ensures FilteredOrders(SampleOrders, Processing) == []
  {
    FilterEmptyIff(SampleOrders, WithStatus(Processing));
  }
}

=== FILE: roster.dfy ===
/** The student roster page: the search-and-class filter over the student
    list, the per-class statistics chips, and the add-student form with its
    validation chain. */
module Roster {
  import opened Wrappers
  import opened Text
  import opened Listing

  /** A row of the `users` collection; fields the backend may omit are optional. */
  datatype Student = Student(
    id: string,
    studentId: Option<string>,
    firstName: Option<string>,
    lastName: Option<string>,
    schoolClass: Option<string>)

  /** The class filter's "every class" value. */
  const AllClasses: string := "all"

  const DefaultClass: string := "5а"

  /** `(user.student_id && user.student_id.toString().includes(search))`:
      case-sensitive, and an empty or missing id never matches. */
  predicate IdMatches(studentId: Option<string>, search: string)
  {
    Present(studentId) && Contains(studentId.value, search)
  }

  predicate MatchesSearch(u: Student, search: string)
  {
    search == "" || FoldedIncludes(u.firstName, search) || FoldedIncludes(u.lastName, search) || IdMatches(u.studentId, search)
  }

  predicate MatchesClass(u: Student, selected: string)
  {
    selected == AllClasses || u.schoolClass == Some(selected)
  }

  function Shown(search: string, selected: string): Student -> bool
  {
    (u: Student) => MatchesSearch(u, search) && MatchesClass(u, selected)
  }

  /** `filteredUsers`: the students passing both the search and the class test, in roster order. */
  function FilteredUsers(users: seq<Student>, search: string, selected: string): (r: seq<Student>)
    ensures forall u :: u in r <==> u in users && MatchesSearch(u, search) && MatchesClass(u, selected)
    ensures IsSubsequence(r, users)
    ensures forall u :: multiset(r)[u] == (if MatchesSearch(u, search) && MatchesClass(u, selected) then multiset(users)[u] else 0)
    ensures search == "" && selected == AllClasses ==> r == users
    ensures selected != AllClasses ==> forall u :: u in r ==> u.schoolClass == Some(selected)
  {
    FilterIsSubsequence(users, Shown(search, selected));
    FilterKeepsAll(users, Shown(search, selected));
    Filter(users, Shown(search, selected))
  }

  /** The name tests do not depend on the case of the query; the id test does not fold case. */
  lemma NameSearchIgnoresCase(name: Option<string>, search: string)
    ensures FoldedIncludes(name, Lower(search)) == FoldedIncludes(name, search)
  {
    LowerIdempotent(search);
  }

  /** The search test in positional terms: the folded query occurs in a folded
      name, or the raw query occurs in a non-empty student id. */
  lemma SearchIffOccurs(u: Student, search: string)
    ensures MatchesSearch(u, search) <==>
      || search == ""
      || (u.firstName.Some? && exists i :: OccursAt(Lower(u.firstName.value), Lower(search), i))
      || (u.lastName.Some? && exists i :: OccursAt(Lower(u.lastName.value), Lower(search), i))
      || (Present(u.studentId) && exists i :: OccursAt(u.studentId.value, search, i))
  {
    if u.firstName.Some? {
      ContainsIffOccurs(Lower(u.firstName.value), Lower(search));
    }
    if u.lastName.Some? {
      ContainsIffOccurs(Lower(u.lastName.value), Lower(search));
    }
    if Present(u.studentId) {
      ContainsIffOccurs(u.studentId.value, search);
    }
  }

  /** The class of every student, in roster order. */
  function ClassesOf(users: seq<Student>): (ks: seq<Option<string>>)
    ensures |ks| == |users|
    ensures forall i :: 0 <= i < |users| ==> ks[i] == users[i].schoolClass
  {
    Map(users, (u: Student) => u.schoolClass)
  }

  /** `classStats`: a chip for every non-empty class some student has,
      counting the students in that class. */
  function ClassStats(users: seq<Student>): (m: map<string, nat>)
    ensures forall c :: c in m <==> c != "" && exists i :: 0 <= i < |users| && users[i].schoolClass == Some(c)
    ensures forall c :: c in m ==> m[c] == multiset(ClassesOf(users))[Some(c)]
  {
    Tally(ClassesOf(users))
  }

  /** The chip counts add up to the number of students that have a class. */
  lemma ClassStatsSum(users: seq<Student>)
    ensures SumOf(ClassStats(users)) == |Filter(ClassesOf(users), Present)|
  {
    TallySum(ClassesOf(users));
  }

  /** A click on a class chip: the selected chip resets the filter to every class. */
  function ToggleClass(selected: string, chip: string): (r: string)
    ensures r == chip || r == AllClasses
    ensures r == AllClasses <==> chip == selected || chip == AllClasses
  {
    if chip == selected then AllClasses else chip
  }

  /** Clicking the same chip twice restores the filter exactly when the filter
      was "every class" or that chip to begin with. */
  lemma ToggleTwice(selected: string, chip: string)
    ensures ToggleClass(ToggleClass(selected, chip), chip) == selected <==> selected == AllClasses || selected == chip
  {
  }

  /** The add-student form. */
  datatype StudentForm = StudentForm(firstName: string, lastName: string, schoolClass: string, studentId: string)

  const EmptyStudentForm: StudentForm := StudentForm("", "", DefaultClass, "")

  /** The id input's change handler keeps every digit typed, in order, and nothing else. */
  function EnterStudentId(f: StudentForm, input: string): (r: StudentForm)
    ensures AllDigits(r.studentId)
    ensures IsSubsequence(r.studentId, input)
    ensures forall c :: multiset(r.studentId)[c] == (if IsDigit(c) then multiset(input)[c] else 0)
    ensures r.(studentId := f.studentId) == f
    ensures AllDigits(input) ==> r.studentId == input
  {
    StripNonDigitsFixes(input);
    f.(studentId := StripNonDigits(input))
  }

  /** The alerts of the validation chain, in the order the page checks them. */
  datatype StudentError = MissingFirstName | MissingLastName | MissingStudentId | StudentIdNotNumber

  /** The record sent to the `users` collection: the fields as typed, untrimmed. */
  datatype NewStudent = NewStudent(studentId: string, firstName: string, lastName: string, schoolClass: string)

  /** `addUser`'s checks: the first failing one is reported. */
  function ValidateStudent(f: StudentForm): (r: Result<NewStudent, StudentError>)
    ensures r == Failure(MissingFirstName) <==> IsBlank(f.firstName)
    ensures r == Failure(MissingLastName) <==> !IsBlank(f.firstName) && IsBlank(f.lastName)
    ensures r == Failure(MissingStudentId) <==> !IsBlank(f.firstName) && !IsBlank(f.lastName) && IsBlank(f.studentId)
    ensures r == Failure(StudentIdNotNumber) <==>
      !IsBlank(f.firstName) && !IsBlank(f.lastName) && !IsBlank(f.studentId) && !ParsesAsInt(f.studentId)
    ensures r.Success? ==> r.value == NewStudent(f.studentId, f.firstName, f.lastName, f.schoolClass)
  {
    if IsBlank(f.firstName) then Failure(MissingFirstName)
    else if IsBlank(f.lastName) then Failure(MissingLastName)
    else if IsBlank(f.studentId) then Failure(MissingStudentId)
    else if !ParsesAsInt(f.studentId) then Failure(StudentIdNotNumber)
    else Success(NewStudent(f.studentId, f.firstName, f.lastName, f.schoolClass))
  }

  /** An id entered through the digit-only input can be refused only for being
      empty, never for not being a number. */
  lemma DigitIdOnlyMissing(f: StudentForm)
    requires AllDigits(f.studentId)
    ensures ValidateStudent(f) != Failure(StudentIdNotNumber)
    ensures ValidateStudent(f) == Failure(MissingStudentId) <==>
      !IsBlank(f.firstName) && !IsBlank(f.lastName) && f.studentId == ""
  {
    DigitsBlankIffEmpty(f.studentId);
    if f.studentId != "" {
      DigitsParseAsInt(f.studentId);
    }
  }

  /** The form and the create request after a submission. */
  datatype AddStudentStep = AddStudentStep(form: StudentForm, request: Option<NewStudent>)

  /** `addUser` on the form's values: a rejected form sends nothing and stays as it is;
      an accepted one is sent, and the form is reset when the backend takes it. */
  function AddStudent(f: StudentForm, backendAccepts: bool): (r: AddStudentStep)
    ensures r.request.None? <==> ValidateStudent(f).Failure?
    ensures r.request.None? ==> r.form == f
    ensures r.request.Some? ==> r.request.value == NewStudent(f.studentId, f.firstName, f.lastName, f.schoolClass)
    ensures r.form == (if r.request.Some? && backendAccepts then EmptyStudentForm else f)
  {
    match ValidateStudent(f)
    case Failure(_) => AddStudentStep(f, None)
    case Success(record) => AddStudentStep(if backendAccepts then EmptyStudentForm else f, Some(record))
  }
}

=== FILE: text.dfy ===
/** The JavaScript string operations the pages rely on: `includes`,
    `toLowerCase`, `trim`, `replace(/\D/g, '')`, and the tests
    `isNaN(parseInt(s))` and `isNaN(parseFloat(s))`. */
module Text {
  import opened Wrappers
  import Listing

  /** `p` is a prefix of `s`. */
  predicate IsPrefix(p: string, s: string)
  {
    |p| <= |s| && s[..|p|] == p
  }

  /** `s.includes(needle)`; the empty needle is found in every string. */
  predicate Contains(s: string, needle: string)
    decreases |s|
  {
    IsPrefix(needle, s) || (|s| > 0 && Contains(s[1..], needle))
  }

  /** `field?.toLowerCase().includes(search.toLowerCase())`: the query occurs
      in the field regardless of case, and a missing field never matches. */
  predicate FoldedIncludes(field: Option<string>, search: string)
  {
    field.Some? && Contains(Lower(field.value), Lower(search))
  }

  /** `needle` occurs in `s` starting at index `i`. */
  ghost predicate OccursAt(s: string, needle: string, i: int)
  {
    0 <= i && i + |needle| <= |s| && s[i..i + |needle|] == needle
  }

  /** The recursive search agrees with the positional definition of a substring. */
  lemma {:induction false} ContainsIffOccurs(s: string, needle: string)
    ensures Contains(s, needle) <==> exists i :: OccursAt(s, needle, i)
    decreases |s|
  {
    if IsPrefix(needle, s) {
      assert OccursAt(s, needle, 0);
    } else if |s| > 0 {
      ContainsIffOccurs(s[1..], needle);
      if Contains(s[1..], needle) {
        var i :| OccursAt(s[1..], needle, i);
        assert s[1..][i..i + |needle|] == s[i + 1..i + 1 + |needle|];
        assert OccursAt(s, needle, i + 1);
      }
      if exists i :: OccursAt(s, needle, i) {
        var i :| OccursAt(s, needle, i);
        assert i != 0;
        assert s[1..][i - 1..i - 1 + |needle|] == s[i..i + |needle|];
        assert OccursAt(s[1..], needle, i - 1);
      }
    }
  }

  /** `toLowerCase` on one character: ASCII A-Z and the Cyrillic capitals
      U+0400..U+042F (including Ё) map to their small letters; every other
      character is left as it is. */
  function LowerChar(c: char): char
  {
    if 'A' <= c <= 'Z' then (c as int + 32) as char
    else if '\U{0410}' <= c <= '\U{042F}' then (c as int + 32) as char
    else if '\U{0400}' <= c <= '\U{040F}' then (c as int + 80) as char
    else c
  }

  /** `s.toLowerCase()`, character by character. */
  function Lower(s: string): (r: string)
    ensures |r| == |s|
    ensures forall i :: 0 <= i < |s| ==> r[i] == LowerChar(s[i])
  {
    seq(|s|, i requires 0 <= i < |s| => LowerChar(s[i]))
  }

  /** Lower-casing twice is lower-casing once, so a lower-cased query
      compares the same as the original one. */
  lemma LowerIdempotent(s: string)
    ensures Lower(Lower(s)) == Lower(s)
  {
    forall i | 0 <= i < |s| ensures Lower(Lower(s))[i] == Lower(s)[i] {
      var c := s[i];
      assert LowerChar(LowerChar(c)) == LowerChar(c);
    }
  }

  /** Lower-casing changes exactly the capital letters it knows about. */
  lemma LowerFixesOnlySmall(s: string)
    ensures Lower(s) == s <==> forall i :: 0 <= i < |s| ==> !('A' <= s[i] <= 'Z') && !('\U{0400}' <= s[i] <= '\U{042F}')
  {
    if Lower(s) == s {
      forall i | 0 <= i < |s|
        ensures !('A' <= s[i] <= 'Z') && !('\U{0400}' <= s[i] <= '\U{042F}')
      {
        assert Lower(s)[i] == s[i];
      }
    }
  }

  /** The characters `trim` removes: WhiteSpace and LineTerminator of ECMAScript. */
  predicate IsSpace(c: char)
  {
    || c == '\t' || c == '\n' || c == '\U{000B}' || c == '\U{000C}' || c == '\r'
    || c == ' ' || c == '\U{00A0}' || c == '\U{1680}'
    || ('\U{2000}' <= c <= '\U{200A}')
    || c == '\U{2028}' || c == '\U{2029}' || c == '\U{202F}' || c == '\U{205F}'
    || c == '\U{3000}' || c == '\U{FEFF}'
  }

  /** `s.trimStart()`: the longest suffix of `s` that does not start with a space. */
  function TrimStart(s: string): (r: string)
    ensures |r| <= |s| && r == s[|s| - |r|..]
    ensures forall i :: 0 <= i < |s| - |r| ==> IsSpace(s[i])
    ensures r == [] || !IsSpace(r[0])
    decreases |s|
  {
    if |s| > 0 && IsSpace(s[0]) then TrimStart(s[1..]) else s
  }

  /** `s.trimEnd()`: the longest prefix of `s` that does not end with a space. */
  function TrimEnd(s: string): (r: string)
    ensures |r| <= |s| && r == s[..|r|]
    ensures forall i :: |r| <= i < |s| ==> IsSpace(s[i])
    ensures r == [] || !IsSpace(r[|r| - 1])
    decreases |s|
  {
    if |s| > 0 && IsSpace(s[|s| - 1]) then TrimEnd(s[..|s| - 1]) else s
  }

  /** `r` is `s[a..b]` and everything outside that slice is white space. */
  ghost predicate TrimmedSlice(s: string, r: string, a: int, b: int)
  {
    && 0 <= a <= b <= |s| && r == s[a..b]
    && (forall i :: 0 <= i < a ==> IsSpace(s[i]))
    && (forall i :: b <= i < |s| ==> IsSpace(s[i]))
  }

  /** `s.trim()`: a contiguous slice of `s` with only spaces cut from both ends. */
  function Trim(s: string): (r: string)
    ensures exists a, b :: TrimmedSlice(s, r, a, b)
    ensures r == [] || (!IsSpace(r[0]) && !IsSpace(r[|r| - 1]))
  {
    var t := TrimStart(s);
    var r := TrimEnd(t);
    TrimShape(s, t, r);
    assert r != [] ==> r[0] == t[0];
    r
  }

  /** Trimming the start and then the end cuts white space only, at both ends. */
  lemma TrimShape(s: string, t: string, r: string)
    requires t == TrimStart(s) && r == TrimEnd(t)
    ensures TrimmedSlice(s, r, |s| - |t|, |s| - |t| + |r|)
  {
    SuffixSlice(s, t, r);
    SuffixSpaces(s, t, |r|);
  }

  /** A prefix of a suffix of `s` is a slice of `s`. */
  lemma SuffixSlice(s: string, t: string, r: string)
    requires |t| <= |s| && t == s[|s| - |t|..]
    requires |r| <= |t| && r == t[..|r|]
    ensures r == s[|s| - |t|..|s| - |t| + |r|]
  {
  }

  /** White space at the end of a suffix of `s` is white space at the end of `s`. */
  lemma SuffixSpaces(s: string, t: string, k: nat)
    requires |t| <= |s| && t == s[|s| - |t|..]
    requires forall j :: k <= j < |t| ==> IsSpace(t[j])
    ensures forall i :: |s| - |t| + k <= i < |s| ==> IsSpace(s[i])
  {
    var a := |s| - |t|;
    forall i | a + k <= i < |s| ensures IsSpace(s[i]) {
      assert s[i] == t[i - a];
    }
  }

  /** `!s.trim()`: the field is empty or holds only spaces. */
  predicate IsBlank(s: string)
  {
    Trim(s) == ""
  }

  /** A string is blank exactly when every character in it is a space. */
  lemma BlankIffAllSpaces(s: string)
    ensures IsBlank(s) <==> forall i :: 0 <= i < |s| ==> IsSpace(s[i])
  {
    var t := TrimStart(s);
    if |t| > 0 {
      assert t[0] == s[|s| - |t|];
    }
  }

  /** An ASCII decimal digit, the class `\d` of a JavaScript regular expression. */
  predicate IsDigit(c: char)
  {
    '0' <= c <= '9'
  }

  predicate IsHexDigit(c: char)
  {
    IsDigit(c) || 'a' <= c <= 'f' || 'A' <= c <= 'F'
  }

  predicate AllDigits(s: string)
  {
    forall i :: 0 <= i < |s| ==> IsDigit(s[i])
  }

  /** `s.replace(/\D/g, '')`: the digits of `s`, in order. */
  function StripNonDigits(s: string): (r: string)
    ensures AllDigits(r)
    ensures forall c :: c in r <==> c in s && IsDigit(c)
    ensures Listing.IsSubsequence(r, s)
    ensures forall c :: multiset(r)[c] == (if IsDigit(c) then multiset(s)[c] else 0)
  {
    Listing.FilterIsSubsequence(s, IsDigit);
    Listing.Filter(s, IsDigit)
  }

  /** Stripping keeps exactly the digit strings fixed, so it is idempotent. */
  lemma StripNonDigitsFixes(s: string)
    ensures StripNonDigits(s) == s <==> AllDigits(s)
    ensures StripNonDigits(StripNonDigits(s)) == StripNonDigits(s)
  {
    Listing.FilterKeepsAll(s, IsDigit);
    Listing.FilterKeepsAll(StripNonDigits(s), IsDigit);
  }

  /** Drops one leading `+` or `-`. */
  function DropSign(s: string): string
  {
    if |s| > 0 && (s[0] == '+' || s[0] == '-') then s[1..] else s
  }

  /** `!isNaN(parseInt(s))` with no radix: after leading spaces and an
      optional sign there is a decimal digit, or, after a `0x`/`0X` prefix,
      a hexadecimal digit. */
  predicate ParsesAsInt(s: string)
  {
    var u := DropSign(TrimStart(s));
    if |u| >= 2 && u[0] == '0' && (u[1] == 'x' || u[1] == 'X') then |u| > 2 && IsHexDigit(u[2])
    else |u| > 0 && IsDigit(u[0])
  }

  /** `!isNaN(parseFloat(s))`: after leading spaces and an optional sign the
      text starts with `Infinity`, a digit, or a point followed by a digit. */
  predicate ParsesAsFloat(s: string)
  {
    var u := DropSign(TrimStart(s));
    IsPrefix("Infinity", u) || (|u| > 0 && IsDigit(u[0])) || (|u| > 1 && u[0] == '.' && IsDigit(u[1]))
  }

  /** A string of digits is blank only when it is empty. */
  lemma DigitsBlankIffEmpty(s: string)
    requires AllDigits(s)
    ensures IsBlank(s) <==> s == ""
  {
    BlankIffAllSpaces(s);
    if s != "" {
      assert !IsSpace(s[0]);
    }
  }

  /** A non-empty string of digits always parses as an integer. */
  lemma DigitsParseAsInt(s: string)
    requires |s| > 0 && AllDigits(s)
    ensures ParsesAsInt(s)
  {
    assert TrimStart(s) == s by {
      assert !IsSpace(s[0]);
    }
  }
}

=== FILE: wrappers.dfy ===
/** Optional values and success-or-error results, used for JavaScript's
    missing fields (`undefined`/`null`) and for form validation outcomes. */
module Wrappers {

  datatype Option<+T> = None | Some(value: T)

  datatype Result<+R, +E> = Success(value: R) | Failure(error: E)
}
